=== FILE: README.md ===
# Coffee shop cart: the `Storage` collection and the cart rules

The shop front end keeps two ordered lists of product entries: the shop
inventory (`store`) and the customer's cart (`cart`). Both are instances of
one class, `Storage`, which extends a JavaScript array. Each entry carries:

- an identifier, a name, a price, a description and an image;
- a stock count.

In the store, the stock count is the number of units left for sale. In the cart, it is the number of units the customer has picked.

The buttons of the page are thin wrappers around one signed transfer,
`moveProductStockFromThisTo(id, amount, dest)`:

- adding a unit moves `+1` from the store into the cart;
- removing a unit moves `-1` from the store into the cart, so one unit flows back to the store;
- erasing a product moves the whole cart quantity from the cart back to the store, then runs a pruning pass that splices out zero-stock entries.

The model is purely functional:

- a `Product` datatype;
- a `Collection = seq<Product>`;
- every mutating method becomes a function from the old lists to the new ones;
- the transfer returns a `Move(source, dest, accepted)`;
- the cart actions return a `Step` holding the new `Ledger(store, cart)` and a `Status`. The status replaces the notifications the page shows.

Files:

- `wrappers.dfy`: `Option`.
- `entities.dfy`: `Product`, plus the two `Item` helpers the class relies on: `checkStock(amount)` as `stock - amount >= 0`, and `calcSubtotal()` as `price * stock`.
- `storage.dfy`: the `Storage` class. Lookup, creation, transfer, pruning (a recursive definition plus the in-place loop), total and clearing.
- `cart.dfy`: the cart rules, the "add new" button predicate, the ledger invariant, and the removal defect described below.

Four behaviours of the code are easy to miss:

- **Round trip.** Moving `n` units from one list to the other and then moving them back is an exact round trip only when the destination already held the product. When the first move created the destination entry, a zero-stock clone remains behind; a pruning pass removes it, provided no other destination entry is at zero (`Storage.MoveRoundTripCreated`).
- **Pruning.** A pruning pass does not remove every zero-stock entry. The array is spliced inside `forEach`, so the entry right after a removed one survives unvisited, whatever its stock (`Storage.PruneSkipsNextEntry`); for the list of two zero-stock entries, the second survives (`Storage.PruneKeepsSecondOfTwoZeros`). When no two zeros are adjacent, the pass does remove every one of them (`Storage.PruneRemovesIsolatedZeros`).
- **Zero moves.** A move of zero units is not a no-op: when the destination lacks the product and the source stock is non-negative, it is accepted and appends a zero-stock clone to the destination (`Storage.MoveStock`, `Storage.MoveCreatesEntry`).
- **Negative moves.** A move is checked against the source list only. A negative move can therefore drive the destination below zero (`Cart.NegativeMoveChecksOnlySource`): for example, with four units in the store and one in the cart, moving minus two is accepted and leaves the cart at minus one.

## Model

| member | source | states |
|---|---|---|
| Storage.FirstIndexFinds | src/main.js:14-16 | the scan `find` performs reports nothing exactly when no entry has the identifier; otherwise it reports a position holding the identifier with no earlier entry holding it |
| Storage.ReferenceProduct | src/main.js:14-16 | the lookup is absent exactly when no entry carries the identifier; otherwise it is an entry of the list with that identifier and no earlier entry carries it |
| Storage.Index | src/main.js:14-16 | for an identifier present in the list, the first position holding it: in range, matching, and preceded by no other match |
| Storage.UniqueIndex | src/main.js:14-16 | with unique identifiers, the entry carrying an identifier is the one the lookup finds |
| Storage.CreateProduct | src/main.js:18-20 | the list grows by one entry at the end, the existing entries are untouched, and the new entry copies the listing with a stock of 1 |
| Storage.DepositShape | src/main.js:29-34 | the destination update either appends a clone holding exactly `amount` (the placeholder 1 overwritten) or raises the existing entry by `amount` |
| Storage.DepositLookup | src/main.js:29-34 | after the destination update, the identifier is present with `amount` more units, and every other identifier's stock is as before |
| Storage.MoveStock | src/main.js:22-38 | the move is accepted exactly when the source holds at least `amount`. A rejected move changes neither list. An accepted move lowers the source by `amount` and raises the destination by `amount`. The two stocks' sum is conserved. No other identifier changes. The destination holds the identifier afterwards exactly when the move was accepted or it held it before |
| Storage.MoveShape | src/main.js:22-38 | an accepted move, written out: the source's first matching entry is lowered, and the destination's is raised or a clone is appended |
| Storage.MoveTouchesOnlyId | src/main.js:22-35 | an accepted move keeps the length and order of the source and every entry except the matching one; the destination keeps every existing entry except the matching one, in place |
| Storage.MoveCreatesEntry | src/main.js:18-32 | a move into a list lacking the identifier appends exactly one entry at the end: a clone of the source listing holding `amount` units |
| Storage.MovePreservesUniqueIds | src/main.js:22-38 | a move keeps identifiers unique in both lists |
| Storage.MovePreservesNonNegative | src/main.js:22-38 | a move keeps both lists free of negative stock, provided the destination does not end up below zero |
| Storage.MoveRoundTrip | src/main.js:22-38 | when the destination already holds the product at a non-negative stock, an accepted move of `n` units followed by moving `n` back is accepted and restores both lists exactly |
| Storage.MoveRoundTripCreated | src/main.js:22-38 | when the first move created the destination entry, moving `n` units over and then back is accepted and restores the source, for any destination. The destination comes back as the original followed by a zero-stock clone of the source listing. Provided no other destination entry is at zero, pruning gives back the original destination |
| Storage.MoveKeepsValue | src/main.js:22-38 | a move, accepted or not, between entries of equal price conserves the combined value (sum of subtotals) of the two lists |
| Storage.PruneKeepsStocked | src/main.js:40-47 | a pruning pass removes no entry with nonzero stock, and the stocked entries keep their order |
| Storage.PruneIsSubsequence | src/main.js:40-47 | a pruning pass only deletes entries: the result is a subsequence of the list |
| Storage.PruneRemovesIsolatedZeros | src/main.js:40-47 | when no two zero-stock entries are adjacent, one pass removes every zero-stock entry |
| Storage.PruneSkipsNextEntry | src/main.js:40-47 | after a prefix without zero-stock entries, the pass keeps the prefix, removes the first zero-stock entry, keeps the entry right after it unvisited whatever its stock, and resumes behind that entry |
| Storage.PruneKeepsSecondOfTwoZeros | src/main.js:40-47 | on a list of two zero-stock entries, the filter leaves nothing but the pass leaves the second entry |
| Storage.PruneAppendZero | src/main.js:40-47 | pruning a list without zeros that ends in one zero-stock entry removes exactly that entry |
| Storage.PruneDropsLoneZero | src/main.js:40-47 | pruning a list without zero-stock entries (negative stocks allowed) in which one entry is set to zero removes exactly that entry |
| Storage.DeleteProdWithNoStock | src/main.js:40-47 | the in-place loop, which splices at the cursor and then advances the cursor, computes the same list as the recursive pruning definition |
| Storage.CalcTotal | src/main.js:49-54 | the accumulating loop returns the sum of all subtotals, and 0 for an empty list |
| Storage.TotalAppend | src/main.js:49-54 | the total of two lists joined is the sum of their totals |
| Storage.TotalUpdate | src/main.js:49-54 | replacing one entry changes the total by the difference of the two subtotals |
| Storage.TotalNonNegative | src/main.js:49-54 | with non-negative prices and stocks, the total is non-negative |
| Storage.ClearOut | src/main.js:56-58 | the cleared list is empty, totals 0, and holds no identifier |
| Cart.AddUnitToCart | src/main.js:90-101 | adding succeeds exactly when the store holds at least one unit. On success, one unit leaves the store and arrives in the cart, and the cart holds the product. On failure, the ledger is unchanged with "stock unavailable". Other products are untouched |
| Cart.AddUnitPreservesValid | src/main.js:90-101 | adding a unit, accepted or refused, keeps identifiers unique, store stock non-negative, and every cart entry at one unit or more |
| Cart.RemoveUnitFromCart | src/main.js:103-115 | as written: refused exactly when the cart holds the product with exactly one unit. Otherwise the move of minus one is tried. It fails exactly when the store holds fewer than minus one. On success, the store gains one unit and the cart loses one. A refusal changes nothing, and other products are untouched |
| Cart.RemoveUnitAsWrittenGoesNegative | src/main.js:103-115 | when the cart has no entry for the product, or one at zero or below, and the store entry holds at least minus one unit, the removal goes ahead: the cart holds the product at one unit less, so at minus one or below, breaking the ledger invariant |
| Cart.RemoveUnitFromCartGuarded | src/main.js:103-115 | corrected: refused exactly when the cart holds at most one unit. Otherwise one unit returns to the store and at least one stays in the cart |
| Cart.RemoveUnitGuardedPreservesValid | src/main.js:103-115 | the corrected removal keeps the ledger invariant |
| Cart.EraseProductFromCart | src/main.js:117-123 | erasing always completes. The store gains the whole cart quantity of the product, and no other store stock changes. The cart does not grow, and every other cart entry with stock survives |
| Cart.EraseZeroesEntry | src/main.js:117-123 | the pruning pass of an erase runs over the cart with the erased entry set to zero and nothing else changed |
| Cart.EraseRemovesEntry | src/main.js:117-123 | on a valid ledger, erasing removes exactly the product's cart entry and keeps the other entries in order |
| Cart.ErasePreservesValid | src/main.js:117-123 | erasing keeps the ledger invariant |
| Cart.AddNewEnabledIffFirstUnit | src/main.js:160-173 | with non-negative store stock, the "add new" button of a store product is enabled exactly when adding a unit succeeds and leaves exactly one unit of it in the cart |
| Cart.NegativeMoveChecksOnlySource | src/main.js:22-38 | when the source entry is not negative, a move of minus `k` units is accepted even when the destination holds fewer than `k`, and leaves the destination below zero |

## Left out

- DOM rendering, event wiring and the parsing of a product id from the last character of a button id: page glue with no state of its own. One state change is left out with it: every click ends in `refreshIndexDOM` (src/main.js:185), which runs one more pruning pass over the cart (src/main.js:222). The cart actions here stop before that pass, and `Cart.Valid` is stated on the ledger they return.
- Toasts and alert dialogs. A refusal is a `Status` value (`StockUnavailable`, `CannotReduce`), not a notification.
- Remote service calls and their asynchronous orchestration (`updateLocalDatabaseStoreArray`, `confirmPurchase`, `completePurchase`, `resetApp`): network I/O with promises. The `clearOut` these call is modelled as `Storage.ClearOut`.
- `synchronizeStoreWithDatabaseStore` (src/main.js:201-208): a synchronous loop that pushes a new entry into `store` for each record fetched from the remote service. It builds the initial inventory and involves no cart rule; the model takes the store as a given list.
- Local-storage persistence (`updateLocalStorageCart`, `getCartFromLocalStorage`, `checkLocalStorageAndUpdateCart`): browser I/O. Rehydrating the cart amounts to a sequence of `Storage.MoveStock` transfers.
- `addNewUnitToCart`: it differs from `addUnitToCart` only by a notification, so both are `Cart.AddUnitToCart`.
- The `Item` class of `src/entities.js`, which is not part of this model. `checkStock` and `calcSubtotal` are assumed as `stock - amount >= 0` and `price * stock` (`Entities.CheckStock`, `Entities.Subtotal`).
- Floating-point prices: prices are integer cents, so totals are exact.
- JavaScript loose equality between string and numeric identifiers: identifiers are `int`.
- The crash when a transfer, or `eraseProductFromCart`, is given an identifier absent from the list it moves units out of: presence is a precondition (`requires HasId`).
- Cart.AddNewEnabledIffFirstUnit: assumes non-negative store stock. With a negative store stock, JavaScript truthiness enables the button although the transfer is refused.
- Storage.MoveKeepsValue: requires equal prices for the source and destination entries. The JavaScript code never reprices an entry, so the clone and the original always agree.

## Findings

| source | as written | input that shows it | evidently intended | confidence | as-written member | corrected member |
|---|---|---|---|---|---|---|
| src/main.js:103-115 | the removal is refused only when the cart entry holds exactly one unit (`-product.stock === removeUnit`); in every other case `-1` is moved from the store into the cart | a store holding the product and a cart without it: the removal is accepted and appends a cart entry with stock `-1` (the same happens when the cart entry sits at 0) | the cart quantity never drops below one: refuse the removal unless the cart holds at least two units | not executed | Cart.RemoveUnitAsWrittenGoesNegative | Cart.RemoveUnitFromCartGuarded |

=== FILE: cart.dfy ===
/**
 * The cart rules built on the stock transfer: adding a unit, removing a
 * unit, erasing a product from the cart, and the predicate that enables the
 * "add new" button of a store product.  The ledger is the pair (store, cart).
 */
module Cart {
  import opened Wrappers
  import opened Entities
  import opened Storage

  /** The two collections the application keeps. */
  datatype Ledger = Ledger(store: Collection, cart: Collection)

  /** How a button action ended; the JavaScript code shows the two refusals as notifications. */
  datatype Status = Done | StockUnavailable | CannotReduce

  /** A ledger after an action, with how the action ended. */
  datatype Step = Step(ledger: Ledger, status: Status)

  /** The unit `removeUnitFromCart` moves, negative because it flows from the cart back to the store. */
  const RemoveUnit: int := -1

  /** A store-to-cart move, read back as a ledger step. */
  function FromStore(m: Move): Step
  {
    Step(Ledger(m.source, m.dest), if m.accepted then Done else StockUnavailable)
  }

  /**
   * `addUnitToCart` (and `addNewUnitToCart`, which differs only by a
   * notification): move one unit of `id` from the store into the cart.
   */
  function AddUnitToCart(l: Ledger, id: int): (r: Step)
    requires HasId(l.store, id)
    ensures r.status == Done <==> StockOf(l.store, id) >= 1
    ensures r.status != Done ==> r.status == StockUnavailable && r.ledger == l
    ensures r.status == Done ==> StockOf(r.ledger.store, id) == StockOf(l.store, id) - 1
    ensures r.status == Done ==> StockOf(r.ledger.cart, id) == StockOf(l.cart, id) + 1
    ensures r.status == Done ==> HasId(r.ledger.cart, id)
    ensures forall x :: x != id ==> StockOf(r.ledger.store, x) == StockOf(l.store, x)
    ensures forall x :: x != id ==> StockOf(r.ledger.cart, x) == StockOf(l.cart, x)
  {
    FromStore(MoveStock(l.store, id, 1, l.cart))
  }

  /**
   * `removeUnitFromCart` as written: refused only when the cart entry holds
   * exactly one unit; otherwise one unit moves from the cart back to the
   * store, through a store-to-cart move of `RemoveUnit`.
   */
  function RemoveUnitFromCart(l: Ledger, id: int): (r: Step)
    requires HasId(l.store, id)
    ensures r.status == CannotReduce <==> HasId(l.cart, id) && StockOf(l.cart, id) == 1
    ensures r.status != Done ==> r.ledger == l
    ensures r.status == StockUnavailable <==> r.status != CannotReduce && StockOf(l.store, id) < -1
    ensures r.status == Done ==> StockOf(r.ledger.store, id) == StockOf(l.store, id) + 1
    ensures r.status == Done ==> StockOf(r.ledger.cart, id) == StockOf(l.cart, id) - 1
    ensures forall x :: x != id ==> StockOf(r.ledger.store, x) == StockOf(l.store, x)
    ensures forall x :: x != id ==> StockOf(r.ledger.cart, x) == StockOf(l.cart, x)
  {
    FirstIndexFinds(l.cart, id);
    var product := ReferenceProduct(l.cart, id);
    if product.Some? && -product.value.stock == RemoveUnit then
      Step(l, CannotReduce)
    else
      FromStore(MoveStock(l.store, id, RemoveUnit, l.cart))
  }

  /**
   * `removeUnitFromCart` as evidently intended: the cart may not hold fewer
   * than one unit, so the action is refused unless the cart holds at least two.
   */
  function RemoveUnitFromCartGuarded(l: Ledger, id: int): (r: Step)
    requires HasId(l.store, id)
    ensures r.status == CannotReduce <==> StockOf(l.cart, id) <= 1
    ensures r.status != Done ==> r.ledger == l
    ensures r.status == Done ==> StockOf(r.ledger.cart, id) >= 1
    ensures r.status == Done ==> StockOf(r.ledger.store, id) == StockOf(l.store, id) + 1
    ensures r.status == Done ==> StockOf(r.ledger.cart, id) == StockOf(l.cart, id) - 1
    ensures forall x :: x != id ==> StockOf(r.ledger.store, x) == StockOf(l.store, x)
    ensures forall x :: x != id ==> StockOf(r.ledger.cart, x) == StockOf(l.cart, x)
  {
    if StockOf(l.cart, id) <= 1 then
      Step(l, CannotReduce)
    else
      FromStore(MoveStock(l.store, id, RemoveUnit, l.cart))
  }

  /**
   * `eraseProductFromCart`: return the whole cart quantity of `id` to the
   * store, then run one pruning pass over the cart.  The JavaScript code
   * dereferences a missing cart entry, hence `requires`.
   */
  function EraseProductFromCart(l: Ledger, id: int): (r: Step)
    requires HasId(l.cart, id)
    ensures r.status == Done
    ensures StockOf(r.ledger.store, id) == StockOf(l.store, id) + StockOf(l.cart, id)
    ensures forall x :: x != id ==> StockOf(r.ledger.store, x) == StockOf(l.store, x)
    ensures |r.ledger.cart| <= |l.cart|
    ensures forall k :: 0 <= k < |l.cart| && k != Index(l.cart, id) && l.cart[k].stock != 0 ==>
      l.cart[k] in r.ledger.cart
  {
    var amount := ReferenceProduct(l.cart, id).value.stock;
    var m := MoveStock(l.cart, id, amount, l.store);
    var cart' := Prune(m.source);
    PruneKeepsStocked(m.source);
    PruneIsSubsequence(m.source);
    SubsequenceShorter(cart', m.source);
    KeepHoldsStocked(m.source);
    KeepHoldsStocked(cart');
    MoveTouchesOnlyId(l.cart, id, amount, l.store);
    Step(Ledger(m.dest, cart'), Done)
  }

  /**
   * `disableOrEnableAddNewButton`, for the store entry `p`: the button is
   * disabled when `p` has no stock or the cart already holds a nonzero
   * quantity of it (JavaScript truthiness of `stock` and of `?.stock`).
   */
  predicate AddNewDisabled(p: Product, cart: Collection)
  {
    p.stock == 0 || (match ReferenceProduct(cart, p.id)
                     case Some(q) => q.stock != 0
                     case None => false)
  }

  /**
   * With non-negative store stock, the "add new" button of a store product is
   * enabled exactly when adding a unit succeeds and leaves exactly one unit
   * of it in the cart.
   */
  lemma AddNewEnabledIffFirstUnit(l: Ledger, id: int)
    requires HasId(l.store, id) && NonNegative(l.store)
    ensures var r := AddUnitToCart(l, id);
      !AddNewDisabled(l.store[Index(l.store, id)], l.cart) <==>
        r.status == Done && StockOf(r.ledger.cart, id) == 1
  {
    var i := Index(l.store, id);
    assert StockOf(l.store, id) == l.store[i].stock;
    FirstIndexFinds(l.cart, id);
  }

  // ---------------------------------------------------------------------------
  // The ledger invariant
  // ---------------------------------------------------------------------------

  /**
   * The shape the application keeps between clicks (before the page's closing
   * pruning pass, which is not modelled): identifiers unique in
   * each list, no negative store stock, and every cart entry holding at
   * least one unit.
   */
  predicate Valid(l: Ledger)
  {
    UniqueIds(l.store) && UniqueIds(l.cart) && NonNegative(l.store) && Positive(l.cart)
  }

  /** Adding a unit keeps the ledger valid, whether it is accepted or refused. */
  lemma AddUnitPreservesValid(l: Ledger, id: int)
    requires Valid(l) && HasId(l.store, id)
    ensures Valid(AddUnitToCart(l, id).ledger)
  {
    var m := MoveStock(l.store, id, 1, l.cart);
    MovePreservesUniqueIds(l.store, id, 1, l.cart);
    if m.accepted {
      MoveShape(l.store, id, 1, l.cart);
      var i := Index(l.store, id);
      assert StockOf(l.store, id) == l.store[i].stock;
    }
  }

  /** The corrected removal keeps the ledger valid. */
  lemma RemoveUnitGuardedPreservesValid(l: Ledger, id: int)
    requires Valid(l) && HasId(l.store, id)
    ensures Valid(RemoveUnitFromCartGuarded(l, id).ledger)
  {
    if StockOf(l.cart, id) > 1 {
      var m := MoveStock(l.store, id, RemoveUnit, l.cart);
      MovePreservesUniqueIds(l.store, id, RemoveUnit, l.cart);
      MoveShape(l.store, id, RemoveUnit, l.cart);
      FirstIndexFinds(l.cart, id);
      var j := Index(l.cart, id);
      assert StockOf(l.cart, id) == l.cart[j].stock;
    }
  }

  /**
   * On a valid ledger, erasing `id` removes exactly its cart entry and keeps
   * the rest of the cart in order, because no other cart entry is at zero for
   * the pruning pass to trip over.
   */
  lemma EraseRemovesEntry(l: Ledger, id: int)
    requires Valid(l) && HasId(l.cart, id)
    ensures var i := Index(l.cart, id);
      EraseProductFromCart(l, id).ledger.cart == l.cart[..i] + l.cart[i + 1..]
  {
    var i := Index(l.cart, id);
    var amount := l.cart[i].stock;
    assert StockOf(l.cart, id) == amount;
    MoveShape(l.cart, id, amount, l.store);
    var m := MoveStock(l.cart, id, amount, l.store);
    assert m.source == l.cart[i := WithStock(l.cart[i], 0)];
    PruneDropsLoneZero(l.cart, i);
  }

  /**
   * Erasing returns the whole cart quantity to the store, so the pruning pass
   * runs over the cart with that entry, and only that entry, set to zero.
   */
  lemma EraseZeroesEntry(l: Ledger, id: int)
    requires HasId(l.cart, id)
    ensures var i := Index(l.cart, id);
      EraseProductFromCart(l, id).ledger.cart == Prune(l.cart[i := WithStock(l.cart[i], 0)])
  {
    var i := Index(l.cart, id);
    assert StockOf(l.cart, id) == l.cart[i].stock;
    MoveShape(l.cart, id, l.cart[i].stock, l.store);
  }

  /** Erasing a product keeps the ledger valid. */
  lemma ErasePreservesValid(l: Ledger, id: int)
    requires Valid(l) && HasId(l.cart, id)
    ensures Valid(EraseProductFromCart(l, id).ledger)
  {
    var i := Index(l.cart, id);
    var amount := l.cart[i].stock;
    assert StockOf(l.cart, id) == amount;
    var m := MoveStock(l.cart, id, amount, l.store);
    MovePreservesUniqueIds(l.cart, id, amount, l.store);
    MovePreservesNonNegative(l.cart, id, amount, l.store);
    assert EraseProductFromCart(l, id).ledger.store == m.dest;
    EraseRemovesEntry(l, id);
    DropKeepsShape(l.cart, i);
  }

  /** Dropping one entry keeps identifiers unique and stocks positive. */
  lemma DropKeepsShape(c: Collection, i: int)
    requires 0 <= i < |c| && UniqueIds(c) && Positive(c)
    ensures UniqueIds(c[..i] + c[i + 1..]) && Positive(c[..i] + c[i + 1..])
  {
    var d := c[..i] + c[i + 1..];
    assert forall k :: 0 <= k < |d| ==> d[k] == c[if k < i then k else k + 1];
  }

  // ---------------------------------------------------------------------------
  // The removal guard as written
  // ---------------------------------------------------------------------------

  /**
   * The guard of `removeUnitFromCart` only tests for exactly one unit: when
   * the cart has no entry for the product, or one at zero or below, the
   * removal goes ahead (whenever the store entry holds at least minus one
   * unit) and leaves the cart holding minus one unit or fewer.
   */
  lemma RemoveUnitAsWrittenGoesNegative(l: Ledger, id: int)
    requires HasId(l.store, id) && StockOf(l.store, id) >= RemoveUnit
    requires StockOf(l.cart, id) <= 0
    ensures var r := RemoveUnitFromCart(l, id);
      && r.status == Done
      && HasId(r.ledger.cart, id)
      && StockOf(r.ledger.cart, id) == StockOf(l.cart, id) - 1 <= -1
      && !Valid(r.ledger)
  {
    var r := RemoveUnitFromCart(l, id);
    assert HasId(r.ledger.cart, id);
    var j := Index(r.ledger.cart, id);
    assert StockOf(r.ledger.cart, id) == r.ledger.cart[j].stock;
  }

  /**
   * A negative move is checked against the source list only: when the
   * source entry is not negative, moving minus `k` units is accepted even
   * when the destination holds fewer than `k`, and the destination ends
   * below zero.
   */
  lemma NegativeMoveChecksOnlySource(source: Collection, id: int, amount: int, dest: Collection)
    requires HasId(source, id) && StockOf(source, id) >= 0
    requires amount < 0 && StockOf(dest, id) + amount < 0
    ensures var m := MoveStock(source, id, amount, dest);
      m.accepted && StockOf(m.dest, id) < 0
  {
  }
}

=== FILE: entities.dfy ===
/**
 * The product record of the shop (`Item` in the JavaScript code).
 *
 * `Item` lives in a file that is not part of this model; its two helpers are
 * therefore stated here as assumptions rather than transcribed:
 *   - `checkStock(amount)` holds when the record can give up `amount` units
 *     without its stock going negative;
 *   - `calcSubtotal()` is price times stock.
 * Prices are integer cents.
 */
module Entities {

  /** One product entry: identifier, display data, unit price in cents, and units held. */
  datatype Product = Product(id: int, name: string, price: int, stock: int, desc: string, img: string)

  /** Two records describe the same catalogue item (everything but the stock agrees). */
  predicate SameListing(a: Product, b: Product)
  {
    a.id == b.id && a.name == b.name && a.price == b.price && a.desc == b.desc && a.img == b.img
  }

  /** `p.checkStock(amount)`: taking `amount` units away leaves a non-negative stock. */
  predicate CheckStock(p: Product, amount: int)
  {
    p.stock - amount >= 0
  }

  /** `p.calcSubtotal()`: the value of the units held, in cents. */
  function Subtotal(p: Product): int
  {
    p.price * p.stock
  }

  /** A fresh record with `p`'s listing and the given stock (`new Item(p.id, ..., stock, ...)`). */
  function WithStock(p: Product, stock: int): (r: Product)
    ensures SameListing(r, p) && r.stock == stock
  {
    Product(p.id, p.name, p.price, stock, p.desc, p.img)
  }
}

=== FILE: storage.dfy ===
/**
 * The `Storage` collection: an ordered list of product entries, used once as
 * the shop inventory and once as the cart.  Every mutating method of the
 * JavaScript class becomes a pure function from the old list to the new one.
 */
module Storage {
  import opened Wrappers
  import opened Entities

  /** An ordered product list; identifiers are expected, not forced, to be unique. */
  type Collection = seq<Product>

  // ---------------------------------------------------------------------------
  // Lookup
  // ---------------------------------------------------------------------------

  /** Some entry of `s` carries identifier `id`. */
  predicate HasId(s: Collection, id: int)
  {
    exists k :: 0 <= k < |s| && s[k].id == id
  }

  /** Position of the first entry carrying `id`, scanning from the front as `find` does. */
  function FirstIndex(s: Collection, id: int): Option<nat>
  {
    if |s| == 0 then None
    else if s[0].id == id then Some(0)
    else
      match FirstIndex(s[1..], id)
      case None => None
      case Some(k) => Some(k + 1)
  }

  /** The position `FirstIndex` reports holds `id` and no earlier entry does; it reports none exactly when `id` is absent. */
  lemma {:induction false} FirstIndexFinds(s: Collection, id: int)
    ensures FirstIndex(s, id).None? <==> !HasId(s, id)
    ensures FirstIndex(s, id).Some? ==>
      var i := FirstIndex(s, id).value;
      i < |s| && s[i].id == id && forall k :: 0 <= k < i ==> s[k].id != id
    decreases |s|
  {
    if |s| > 0 && s[0].id != id {
      FirstIndexFinds(s[1..], id);
      assert forall k :: 1 <= k < |s| ==> s[k] == s[1..][k - 1];
    }
  }

  /** The position `FirstIndex` finds, for an identifier known to be present. */
  function Index(s: Collection, id: int): (i: nat)
    requires HasId(s, id)
    ensures i < |s| && s[i].id == id
    ensures forall k :: 0 <= k < i ==> s[k].id != id
    ensures FirstIndex(s, id) == Some(i)
  {
    FirstIndexFinds(s, id);
    FirstIndex(s, id).value
  }

  /** Any position holding `id` with no earlier entry holding it is the one `FirstIndex` reports. */
  lemma FirstIndexIs(s: Collection, id: int, i: int)
    requires 0 <= i < |s| && s[i].id == id
    requires forall k :: 0 <= k < i ==> s[k].id != id
    ensures FirstIndex(s, id) == Some(i)
  {
    FirstIndexFinds(s, id);
  }

  /** `referenceProduct(id)`: the first entry whose identifier is `id`, if any. */
  function ReferenceProduct(s: Collection, id: int): (r: Option<Product>)
    ensures r.None? <==> !HasId(s, id)
    ensures r.Some? ==> r.value.id == id
    ensures r.Some? ==> exists k :: 0 <= k < |s| && s[k] == r.value && forall j :: 0 <= j < k ==> s[j].id != id
  {
    FirstIndexFinds(s, id);
    match FirstIndex(s, id)
    case None => None
    case Some(k) => Some(s[k])
  }

  /** Units of `id` the collection holds, as its first matching entry records them; 0 when absent. */
  function StockOf(s: Collection, id: int): int
  {
    if HasId(s, id) then s[Index(s, id)].stock else 0
  }

  /** No identifier occurs twice. */
  predicate UniqueIds(s: Collection)
  {
    forall j, k :: 0 <= j < k < |s| ==> s[j].id != s[k].id
  }

  /** Every entry holds a non-negative stock. */
  predicate NonNegative(s: Collection)
  {
    forall k :: 0 <= k < |s| ==> s[k].stock >= 0
  }

  /** Every entry holds at least one unit (the shape the cart keeps). */
  predicate Positive(s: Collection)
  {
    forall k :: 0 <= k < |s| ==> s[k].stock >= 1
  }

  /** With unique identifiers, the entry carrying `id` is the one `Index` reports. */
  lemma UniqueIndex(s: Collection, id: int, k: int)
    requires UniqueIds(s) && 0 <= k < |s| && s[k].id == id
    ensures HasId(s, id) && Index(s, id) == k
  {
    FirstIndexIs(s, id, k);
  }

  /** Rewriting one entry without changing its identifier moves no lookup. */
  lemma UpdateKeepsIndex(s: Collection, i: int, p: Product)
    requires 0 <= i < |s| && p.id == s[i].id
    ensures forall x :: FirstIndex(s[i := p], x) == FirstIndex(s, x)
  {
    var t := s[i := p];
    forall x
      ensures FirstIndex(t, x) == FirstIndex(s, x)
    {
      FirstIndexFinds(s, x);
      FirstIndexFinds(t, x);
      if HasId(s, x) {
        FirstIndexIs(t, x, FirstIndex(s, x).value);
      }
    }
  }

  /** Rewriting one entry without changing its identifier leaves the stock of every other identifier alone. */
  lemma StockOfUpdate(s: Collection, i: int, p: Product)
    requires 0 <= i < |s| && p.id == s[i].id
    ensures forall x :: FirstIndex(s[i := p], x) == FirstIndex(s, x)
    ensures StockOf(s[i := p], p.id) == (if Index(s, p.id) == i then p.stock else s[Index(s, p.id)].stock)
    ensures forall x :: x != p.id ==> StockOf(s[i := p], x) == StockOf(s, x)
  {
    UpdateKeepsIndex(s, i, p);
    forall x | x != p.id
      ensures StockOf(s[i := p], x) == StockOf(s, x)
    {
      FirstIndexFinds(s, x);
      FirstIndexFinds(s[i := p], x);
    }
  }

  /** Appending an entry moves no lookup of an identifier already present. */
  lemma AppendIndex(s: Collection, p: Product)
    ensures forall x :: (FirstIndex(s + [p], x) ==
      if HasId(s, x) then FirstIndex(s, x) else if p.id == x then Some(|s|) else None)
  {
    var t := s + [p];
    forall x
      ensures FirstIndex(t, x) ==
        (if HasId(s, x) then FirstIndex(s, x) else if p.id == x then Some(|s|) else None)
    {
      FirstIndexFinds(s, x);
      FirstIndexFinds(t, x);
      if HasId(s, x) {
        FirstIndexIs(t, x, FirstIndex(s, x).value);
      } else if p.id == x {
        FirstIndexIs(t, x, |s|);
      }
    }
  }

  // ---------------------------------------------------------------------------
  // Creation and transfer
  // ---------------------------------------------------------------------------

  /** `createProduct(p)`: append a fresh entry with `p`'s listing and a placeholder stock of 1. */
  function CreateProduct(s: Collection, p: Product): (r: Collection)
    ensures |r| == |s| + 1 && r[..|s|] == s
    ensures SameListing(r[|s|], p) && r[|s|].stock == 1
  {
    s + [WithStock(p, 1)]
  }

  /** `product.stock -= amount` on the entry at position `i`. */
  function Withdraw(s: Collection, i: int, amount: int): Collection
    requires 0 <= i < |s|
  {
    s[i := WithStock(s[i], s[i].stock - amount)]
  }

  /**
   * The destination side of a transfer: when `dest` has no entry for `p.id`,
   * `createProduct(p)` appends a clone whose placeholder stock is then
   * overwritten with `amount`; otherwise the first entry for `p.id` gains `amount`.
   */
  function Deposit(dest: Collection, p: Product, amount: int): Collection
  {
    FirstIndexFinds(dest, p.id);
    match FirstIndex(dest, p.id)
    case None =>
      var created := CreateProduct(dest, p);
      created[|dest| := WithStock(created[|dest|], amount)]
    case Some(j) =>
      dest[j := WithStock(dest[j], dest[j].stock + amount)]
  }

  /** The deposit written out: a clone of `p` holding `amount` appended, or the existing entry raised by `amount`. */
  lemma DepositShape(dest: Collection, p: Product, amount: int)
    ensures !HasId(dest, p.id) ==> Deposit(dest, p, amount) == dest + [WithStock(p, amount)]
    ensures HasId(dest, p.id) ==>
      var j := Index(dest, p.id);
      Deposit(dest, p, amount) == dest[j := WithStock(dest[j], dest[j].stock + amount)]
  {
    FirstIndexFinds(dest, p.id);
    if !HasId(dest, p.id) {
      var created := CreateProduct(dest, p);
      var r := created[|dest| := WithStock(created[|dest|], amount)];
      assert r[|dest|] == WithStock(p, amount);
      assert r == dest + [WithStock(p, amount)];
    }
  }

  /** After a deposit the list holds `p.id`, `amount` more units of it, and every other lookup as before. */
  lemma DepositLookup(dest: Collection, p: Product, amount: int)
    ensures var r := Deposit(dest, p, amount);
      && HasId(r, p.id)
      && (HasId(dest, p.id) ==> FirstIndex(r, p.id) == FirstIndex(dest, p.id))
      && StockOf(r, p.id) == StockOf(dest, p.id) + amount
      && (forall x :: x != p.id ==> FirstIndex(r, x) == FirstIndex(dest, x))
      && (forall x :: x != p.id ==> StockOf(r, x) == StockOf(dest, x))
  {
    var r := Deposit(dest, p, amount);
    DepositShape(dest, p, amount);
    FirstIndexFinds(dest, p.id);
    if HasId(dest, p.id) {
      var j := Index(dest, p.id);
      UpdateKeepsIndex(dest, j, r[j]);
      assert r[j].id == p.id;
    } else {
      AppendIndex(dest, r[|dest|]);
      assert r[|dest|].id == p.id;
      forall x | x != p.id
        ensures FirstIndex(r, x) == FirstIndex(dest, x)
      {
        FirstIndexFinds(dest, x);
      }
    }
    forall x | x != p.id
      ensures StockOf(r, x) == StockOf(dest, x)
    {
      FirstIndexFinds(dest, x);
      if HasId(dest, x) {
        var k := Index(dest, x);
        assert r[k] == dest[k];
      }
    }
  }

  /** The pair of collections after `source.moveProductStockFromThisTo(id, amount, dest)`. */
  datatype Move = Move(source: Collection, dest: Collection, accepted: bool)

  /**
   * `moveProductStockFromThisTo`: move a signed `amount` of units of `id` from
   * `source` to `dest`.  The move is refused, leaving both lists as they were,
   * when the source entry cannot give up `amount` units.  Otherwise the source
   * entry loses `amount` and the destination gains it (see `Deposit`).  The
   * JavaScript code dereferences a missing source entry, hence `requires`.
   */
  function MoveStock(source: Collection, id: int, amount: int, dest: Collection): (m: Move)
    requires HasId(source, id)
    ensures m.accepted <==> StockOf(source, id) >= amount
    ensures !m.accepted ==> m.source == source && m.dest == dest
    ensures m.accepted ==> StockOf(m.source, id) == StockOf(source, id) - amount
    ensures m.accepted ==> StockOf(m.dest, id) == StockOf(dest, id) + amount
    ensures forall x :: x != id ==> StockOf(m.source, x) == StockOf(source, x)
    ensures forall x :: x != id ==> StockOf(m.dest, x) == StockOf(dest, x)
    ensures HasId(m.dest, id) <==> m.accepted || HasId(dest, id)
    ensures StockOf(m.source, id) + StockOf(m.dest, id) == StockOf(source, id) + StockOf(dest, id)
  {
    var i := Index(source, id);
    if !CheckStock(source[i], amount) then
      Move(source, dest, false)
    else
      var source' := Withdraw(source, i, amount);
      assert source' == source[i := source'[i]];
      StockOfUpdate(source, i, source'[i]);
      DepositLookup(dest, source'[i], amount);
      Move(source', Deposit(dest, source'[i], amount), true)
  }

  /** The two lists an accepted move produces, written out entry by entry. */
  lemma MoveShape(source: Collection, id: int, amount: int, dest: Collection)
    requires HasId(source, id) && StockOf(source, id) >= amount
    ensures var m := MoveStock(source, id, amount, dest);
      var i := Index(source, id);
      && m.source == source[i := WithStock(source[i], source[i].stock - amount)]
      && (HasId(dest, id) ==>
            var j := Index(dest, id); m.dest == dest[j := WithStock(dest[j], dest[j].stock + amount)])
      && (!HasId(dest, id) ==> m.dest == dest + [WithStock(source[i], amount)])
  {
    var i := Index(source, id);
    var p := WithStock(source[i], source[i].stock - amount);
    DepositShape(dest, p, amount);
    assert WithStock(p, amount) == WithStock(source[i], amount);
  }

  /** An accepted move rewrites only the stock of the first `id` entry in each list and keeps every other entry and the order. */
  lemma MoveTouchesOnlyId(source: Collection, id: int, amount: int, dest: Collection)
    requires HasId(source, id)
    requires MoveStock(source, id, amount, dest).accepted
    ensures var m := MoveStock(source, id, amount, dest);
      var i := Index(source, id);
      && |m.source| == |source|
      && (forall k :: 0 <= k < |source| && k != i ==> m.source[k] == source[k])
      && SameListing(m.source[i], source[i])
      && (HasId(dest, id) ==>
            && |m.dest| == |dest|
            && (forall k :: 0 <= k < |dest| && k != Index(dest, id) ==> m.dest[k] == dest[k])
            && SameListing(m.dest[Index(dest, id)], dest[Index(dest, id)]))
      && (!HasId(dest, id) ==> |m.dest| == |dest| + 1 && m.dest[..|dest|] == dest)
  {
    MoveShape(source, id, amount, dest);
  }

  /** A move into a list lacking `id` appends one clone of the source listing holding exactly `amount` units. */
  lemma MoveCreatesEntry(source: Collection, id: int, amount: int, dest: Collection)
    requires HasId(source, id) && !HasId(dest, id)
    requires MoveStock(source, id, amount, dest).accepted
    ensures var m := MoveStock(source, id, amount, dest);
      && m.dest == dest + [m.dest[|dest|]]
      && SameListing(m.dest[|dest|], source[Index(source, id)])
      && m.dest[|dest|].stock == amount
  {
    MoveShape(source, id, amount, dest);
  }

  /** A move keeps identifiers unique in both lists. */
  lemma MovePreservesUniqueIds(source: Collection, id: int, amount: int, dest: Collection)
    requires HasId(source, id) && UniqueIds(source) && UniqueIds(dest)
    ensures var m := MoveStock(source, id, amount, dest);
      UniqueIds(m.source) && UniqueIds(m.dest)
  {
    var m := MoveStock(source, id, amount, dest);
    if m.accepted {
      MoveShape(source, id, amount, dest);
      var i := Index(source, id);
      assert forall k :: 0 <= k < |source| ==> m.source[k].id == source[k].id;
      if HasId(dest, id) {
        var j := Index(dest, id);
        assert forall k :: 0 <= k < |dest| ==> m.dest[k].id == dest[k].id;
      } else {
        assert forall k :: 0 <= k < |dest| ==> m.dest[k] == dest[k];
        assert m.dest[|dest|].id == id;
      }
    }
  }

  /**
   * A move keeps every stock non-negative when the destination can absorb
   * `amount`: always for a non-negative amount, and for a negative one only
   * when the destination already holds at least `-amount` units.
   */
  lemma MovePreservesNonNegative(source: Collection, id: int, amount: int, dest: Collection)
    requires HasId(source, id) && NonNegative(source) && NonNegative(dest)
    requires StockOf(dest, id) + amount >= 0
    ensures var m := MoveStock(source, id, amount, dest);
      NonNegative(m.source) && NonNegative(m.dest)
  {
    var m := MoveStock(source, id, amount, dest);
    if m.accepted {
      MoveShape(source, id, amount, dest);
      if HasId(dest, id) {
        var j := Index(dest, id);
        assert StockOf(dest, id) == dest[j].stock;
      }
    }
  }

  /**
   * Moving `n` units and moving them straight back restores both lists when
   * the destination already held the product: the round trip is exact.
   */
  lemma MoveRoundTrip(source: Collection, id: int, n: int, dest: Collection)
    requires HasId(source, id) && HasId(dest, id)
    requires StockOf(source, id) >= n && StockOf(dest, id) >= 0
    ensures var m := MoveStock(source, id, n, dest);
      var back := MoveStock(m.dest, id, n, m.source);
      back.accepted && back.source == dest && back.dest == source
  {
    var m := MoveStock(source, id, n, dest);
    var i, j := Index(source, id), Index(dest, id);
    MoveShape(source, id, n, dest);
    UpdateKeepsIndex(dest, j, m.dest[j]);
    UpdateKeepsIndex(source, i, m.source[i]);
    assert Index(m.dest, id) == j && Index(m.source, id) == i;
    MoveShape(m.dest, id, n, m.source);
    assert WithStock(m.dest[j], m.dest[j].stock - n) == dest[j];
    assert WithStock(m.source[i], m.source[i].stock + n) == source[i];
  }

  /**
   * When the destination lacked the product, the round trip is accepted and
   * restores the source but leaves a zero-stock clone at the end of the
   * destination; one pruning pass removes it again provided no other
   * destination entry is at zero.
   */
  lemma MoveRoundTripCreated(source: Collection, id: int, n: int, dest: Collection)
    requires HasId(source, id) && !HasId(dest, id)
    requires StockOf(source, id) >= n
    ensures var m := MoveStock(source, id, n, dest);
      var back := MoveStock(m.dest, id, n, m.source);
      && back.accepted && back.dest == source
      && back.source == dest + [WithStock(source[Index(source, id)], 0)]
    ensures (forall k :: 0 <= k < |dest| ==> dest[k].stock != 0) ==>
      var m := MoveStock(source, id, n, dest);
      Prune(MoveStock(m.dest, id, n, m.source).source) == dest
  {
    var m := MoveStock(source, id, n, dest);
    var i := Index(source, id);
    MoveShape(source, id, n, dest);
    var c := WithStock(source[i], n);
    UniqueIndexAppended(dest, c);
    UpdateKeepsIndex(source, i, m.source[i]);
    assert Index(m.source, id) == i;
    MoveShape(m.dest, id, n, m.source);
    var back := MoveStock(m.dest, id, n, m.source);
    assert WithStock(m.source[i], m.source[i].stock + n) == source[i];
    assert back.source == dest + [WithStock(c, 0)];
    assert WithStock(c, 0) == WithStock(source[i], 0);
    if forall k :: 0 <= k < |dest| ==> dest[k].stock != 0 {
      PruneAppendZero(dest, WithStock(c, 0));
    }
  }

  /** In `s + [p]` with `p`'s id new, the first entry carrying that id is the appended one. */
  lemma UniqueIndexAppended(s: Collection, p: Product)
    requires !HasId(s, p.id)
    ensures HasId(s + [p], p.id) && Index(s + [p], p.id) == |s|
  {
    AppendIndex(s, p);
    assert (s + [p])[|s|].id == p.id;
  }

  // ---------------------------------------------------------------------------
  // Pruning
  // ---------------------------------------------------------------------------

  /** The entries with nonzero stock, in their original order. */
  function Keep(s: Collection): Collection
  {
    if |s| == 0 then [] else (if s[0].stock != 0 then [s[0]] else []) + Keep(s[1..])
  }

  /** `a` is obtained from `b` by deleting entries, keeping the order of the rest. */
  predicate IsSubsequence(a: Collection, b: Collection)
    decreases |b|
  {
    |a| == 0 || (|b| > 0 && ((a[0] == b[0] && IsSubsequence(a[1..], b[1..])) || IsSubsequence(a, b[1..])))
  }

  /**
   * One pass of `deleteProdWithNoStock`.  `forEach` visits index 0, 1, ... of
   * the live array while `splice` removes the visited zero-stock entry, so the
   * entry that slides into the freed slot is never visited: an entry right
   * after a removed one survives the pass whatever its stock.
   */
  function Prune(s: Collection): Collection
    decreases |s|
  {
    if |s| == 0 then []
    else if s[0].stock != 0 then [s[0]] + Prune(s[1..])
    else if |s| == 1 then []
    else [s[1]] + Prune(s[2..])
  }

  /** A pass never removes an entry that holds stock: the stocked entries survive, in order. */
  lemma {:induction false} PruneKeepsStocked(s: Collection)
    ensures Keep(Prune(s)) == Keep(s)
    decreases |s|
  {
    if |s| == 0 {
    } else if s[0].stock != 0 {
      PruneKeepsStocked(s[1..]);
      KeepAppend([s[0]], Prune(s[1..]));
      assert s == [s[0]] + s[1..];
      KeepAppend([s[0]], s[1..]);
    } else if |s| > 1 {
      PruneKeepsStocked(s[2..]);
      KeepAppend([s[1]], Prune(s[2..]));
      assert s[1..] == [s[1]] + s[2..];
      KeepAppend([s[1]], s[2..]);
    }
  }

  /** A pass only deletes entries: what remains is a subsequence of the list, in the original order. */
  lemma {:induction false} PruneIsSubsequence(s: Collection)
    ensures IsSubsequence(Prune(s), s)
    decreases |s|
  {
    if |s| == 0 {
    } else if s[0].stock != 0 {
      PruneIsSubsequence(s[1..]);
      var r := Prune(s);
      assert r[0] == s[0] && r[1..] == Prune(s[1..]);
    } else if |s| > 1 {
      PruneIsSubsequence(s[2..]);
      var r := Prune(s);
      assert r[0] == s[1] && r[1..] == Prune(s[2..]);
      assert s[1..][0] == s[1] && s[1..][1..] == s[2..];
      assert IsSubsequence(r, s[1..]);
    }
  }

  /** A subsequence is no longer than the list it comes from. */
  lemma {:induction false} SubsequenceShorter(a: Collection, b: Collection)
    requires IsSubsequence(a, b)
    ensures |a| <= |b|
    decreases |b|
  {
    if |a| > 0 {
      if a[0] == b[0] && IsSubsequence(a[1..], b[1..]) {
        SubsequenceShorter(a[1..], b[1..]);
      } else {
        SubsequenceShorter(a, b[1..]);
      }
    }
  }

  /** `Keep` holds exactly the stocked entries of the list. */
  lemma {:induction false} KeepHoldsStocked(s: Collection)
    ensures forall p :: p in Keep(s) <==> p in s && p.stock != 0
    decreases |s|
  {
    if |s| > 0 {
      KeepHoldsStocked(s[1..]);
      assert s == [s[0]] + s[1..];
    }
  }

  /** No zero-stock entry immediately follows another one. */
  predicate NoAdjacentZeros(s: Collection)
  {
    forall k :: 0 < k < |s| ==> s[k - 1].stock != 0 || s[k].stock != 0
  }

  /** Without adjacent zero-stock entries, one pass removes every zero-stock entry. */
  lemma {:induction false} PruneRemovesIsolatedZeros(s: Collection)
    requires NoAdjacentZeros(s)
    ensures Prune(s) == Keep(s)
    decreases |s|
  {
    if |s| == 0 {
    } else if s[0].stock != 0 {
      assert NoAdjacentZeros(s[1..]) by {
        forall k | 0 < k < |s[1..]|
          ensures s[1..][k - 1].stock != 0 || s[1..][k].stock != 0
        {
          assert s[1..][k - 1] == s[k] && s[1..][k] == s[k + 1];
        }
      }
      PruneRemovesIsolatedZeros(s[1..]);
    } else if |s| == 1 {
    } else {
      assert s[1].stock != 0 by { assert 0 < 1 < |s|; }
      assert NoAdjacentZeros(s[2..]) by {
        forall k | 0 < k < |s[2..]|
          ensures s[2..][k - 1].stock != 0 || s[2..][k].stock != 0
        {
          assert s[2..][k - 1] == s[k + 1] && s[2..][k] == s[k + 2];
        }
      }
      PruneRemovesIsolatedZeros(s[2..]);
      assert s[1..][1..] == s[2..];
      assert Keep(s[1..]) == [s[1]] + Keep(s[2..]);
    }
  }

  /**
   * The first zero-stock entry after a zero-free prefix is removed, and the
   * entry right after it survives unvisited, whatever its stock; the pass
   * resumes behind that entry.
   */
  lemma {:induction false} PruneSkipsNextEntry(p: Collection, a: Product, b: Product, q: Collection)
    requires forall k :: 0 <= k < |p| ==> p[k].stock != 0
    requires a.stock == 0
    ensures Prune(p + [a, b] + q) == p + [b] + Prune(q)
    decreases |p|
  {
    var t := p + [a, b] + q;
    if |p| == 0 {
      assert t == [a, b] + q;
      assert t[2..] == q;
    } else {
      assert t[0] == p[0] && t[1..] == p[1..] + [a, b] + q;
      PruneSkipsNextEntry(p[1..], a, b, q);
      assert Prune(t) == [p[0]] + (p[1..] + [b] + Prune(q));
      assert [p[0]] + p[1..] == p;
    }
  }

  /** Of two zero-stock entries in a row, the filter drops both but the pass keeps the second. */
  lemma PruneKeepsSecondOfTwoZeros(a: Product, b: Product)
    requires a.stock == 0 && b.stock == 0
    ensures Prune([a, b]) == [b]
    ensures Keep([a, b]) == []
  {
    PruneSkipsNextEntry([], a, b, []);
    assert [] + [a, b] + [] == [a, b];
    assert [a, b][1..] == [b];
    assert [b][1..] == [];
    assert Keep([b]) == [];
  }

  /** A list without zero-stock entries is its own `Keep`. */
  lemma {:induction false} KeepAllNonzero(s: Collection)
    requires forall k :: 0 <= k < |s| ==> s[k].stock != 0
    ensures Keep(s) == s
    decreases |s|
  {
    if |s| > 0 {
      KeepAllNonzero(s[1..]);
    }
  }

  /** `Keep` distributes over concatenation. */
  lemma {:induction false} KeepAppend(a: Collection, b: Collection)
    ensures Keep(a + b) == Keep(a) + Keep(b)
    decreases |a|
  {
    if |a| == 0 {
      assert a + b == b;
    } else {
      assert (a + b)[1..] == a[1..] + b;
      KeepAppend(a[1..], b);
    }
  }

  /** Pruning a list without zero-stock entries, followed by one zero-stock entry, removes exactly that entry. */
  lemma {:induction false} PruneAppendZero(s: Collection, z: Product)
    requires forall k :: 0 <= k < |s| ==> s[k].stock != 0
    requires z.stock == 0
    ensures Prune(s + [z]) == s
    decreases |s|
  {
    if |s| == 0 {
      assert s + [z] == [z];
    } else {
      var t := s + [z];
      assert t[0] == s[0] && t[1..] == s[1..] + [z];
      PruneAppendZero(s[1..], z);
      assert Prune(t) == [s[0]] + s[1..];
    }
  }

  /** In a list without zero-stock entries, zeroing one entry and pruning removes exactly that entry. */
  lemma PruneDropsLoneZero(c: Collection, i: int)
    requires 0 <= i < |c|
    requires forall k :: 0 <= k < |c| ==> c[k].stock != 0
    ensures Prune(c[i := WithStock(c[i], 0)]) == c[..i] + c[i + 1..]
  {
    LoneZeroIsolated(c, i);
    PruneRemovesIsolatedZeros(c[i := WithStock(c[i], 0)]);
    KeepLoneZero(c, i);
  }

  /** Zeroing one entry of a list without zero-stock entries leaves no two zeros adjacent. */
  lemma LoneZeroIsolated(c: Collection, i: int)
    requires 0 <= i < |c|
    requires forall k :: 0 <= k < |c| ==> c[k].stock != 0
    ensures NoAdjacentZeros(c[i := WithStock(c[i], 0)])
  {
    var t := c[i := WithStock(c[i], 0)];
    forall k | 0 < k < |t|
      ensures t[k - 1].stock != 0 || t[k].stock != 0
    {
      if k - 1 == i {
        assert t[k] == c[k];
      } else {
        assert t[k - 1] == c[k - 1];
      }
    }
  }

  /** Zeroing one entry of a list without zero-stock entries: `Keep` drops exactly that entry. */
  lemma KeepLoneZero(c: Collection, i: int)
    requires 0 <= i < |c|
    requires forall k :: 0 <= k < |c| ==> c[k].stock != 0
    ensures Keep(c[i := WithStock(c[i], 0)]) == c[..i] + c[i + 1..]
  {
    var z := WithStock(c[i], 0);
    assert c[i := z] == c[..i] + [z] + c[i + 1..];
    KeepAppend(c[..i] + [z], c[i + 1..]);
    KeepAppend(c[..i], [z]);
    assert Keep([z]) == [] by { assert [z][1..] == []; }
    KeepAllNonzero(c[..i]);
    KeepAllNonzero(c[i + 1..]);
  }

  /** The state the pass has reached: the kept prefix `r[..k]` followed by a pass over the rest. */
  predicate PassState(s: Collection, r: Collection, k: int)
  {
    && 0 <= k <= |r| + 1
    && (k <= |r| ==> r[..k] + Prune(r[k..]) == Prune(s))
    && (k == |r| + 1 ==> r == Prune(s))
  }

  /** `Prune` on a non-empty list, one step unrolled. */
  lemma PruneUnfold(t: Collection)
    requires |t| > 0
    ensures t[0].stock != 0 ==> Prune(t) == [t[0]] + Prune(t[1..])
    ensures t[0].stock == 0 && |t| == 1 ==> Prune(t) == []
    ensures t[0].stock == 0 && |t| > 1 ==> Prune(t) == [t[1]] + Prune(t[2..])
  {
  }

  /** One visit of the pass: splice out a zero-stock entry at the cursor, then advance the cursor. */
  lemma PassStep(s: Collection, r: Collection, k: int)
    requires 0 <= k < |r| && PassState(s, r, k)
    ensures PassState(s, if r[k].stock == 0 then r[..k] + r[k + 1..] else r, k + 1)
  {
    var rest := r[k..];
    PruneUnfold(rest);
    assert rest[0] == r[k] && rest[1..] == r[k + 1..];
    if r[k].stock != 0 {
      PassKeep(s, r, k);
    } else if k + 1 < |r| {
      assert rest[1] == r[k + 1] && rest[2..] == r[k + 2..];
      PassSkip(s, r, k);
    } else {
      assert r[..k] + r[k + 1..] == r[..k];
    }
  }

  /** Visiting an entry with stock: it joins the kept prefix. */
  lemma PassKeep(s: Collection, r: Collection, k: int)
    requires 0 <= k < |r| && r[..k] + Prune(r[k..]) == Prune(s)
    requires Prune(r[k..]) == [r[k]] + Prune(r[k + 1..])
    ensures r[..k + 1] + Prune(r[k + 1..]) == Prune(s)
  {
    assert r[..k + 1] == r[..k] + [r[k]];
  }

  /** Visiting a zero-stock entry that has a successor: it goes, and the successor joins the kept prefix unvisited. */
  lemma PassSkip(s: Collection, r: Collection, k: int)
    requires 0 <= k && k + 1 < |r| && r[..k] + Prune(r[k..]) == Prune(s)
    requires Prune(r[k..]) == [r[k + 1]] + Prune(r[k + 2..])
    ensures var r' := r[..k] + r[k + 1..];
      r'[..k + 1] + Prune(r'[k + 1..]) == Prune(s)
  {
    var r' := r[..k] + r[k + 1..];
    assert r'[..k + 1] == r[..k] + [r[k + 1]];
    assert r'[k + 1..] == r[k + 2..];
  }

  /**
   * `deleteProdWithNoStock`, as the index-driven loop `forEach` performs:
   * the visited zero-stock entry is spliced out and the cursor still advances.
   */
  method DeleteProdWithNoStock(s: Collection) returns (r: Collection)
    ensures r == Prune(s)
  {
    r := s;
    var k := 0;
    assert r[..0] + Prune(r[0..]) == Prune(s) by { assert r[0..] == s; }
    while k < |r|
      invariant PassState(s, r, k)
      decreases |r| + 1 - k
    {
      PassStep(s, r, k);
      if r[k].stock == 0 {
        r := r[..k] + r[k + 1..];
      }
      k := k + 1;
    }
    if k == |r| {
      assert r[..k] == r;
    }
  }

  // ---------------------------------------------------------------------------
  // Totals and clearing
  // ---------------------------------------------------------------------------

  /** Sum of the entries' subtotals, in cents. */
  function Total(s: Collection): int
  {
    if |s| == 0 then 0 else Subtotal(s[0]) + Total(s[1..])
  }

  /** `Total` distributes over concatenation. */
  lemma {:induction false} TotalAppend(a: Collection, b: Collection)
    ensures Total(a + b) == Total(a) + Total(b)
    decreases |a|
  {
    if |a| == 0 {
      assert a + b == b;
    } else {
      assert (a + b)[1..] == a[1..] + b;
      TotalAppend(a[1..], b);
    }
  }

  /** Replacing one entry changes the total by the difference of the two subtotals. */
  lemma TotalUpdate(s: Collection, i: int, p: Product)
    requires 0 <= i < |s|
    ensures Total(s[i := p]) == Total(s) - Subtotal(s[i]) + Subtotal(p)
  {
    assert s == s[..i] + [s[i]] + s[i + 1..];
    assert s[i := p] == s[..i] + [p] + s[i + 1..];
    TotalAppend(s[..i] + [s[i]], s[i + 1..]);
    TotalAppend(s[..i], [s[i]]);
    TotalAppend(s[..i] + [p], s[i + 1..]);
    TotalAppend(s[..i], [p]);
  }

  /** With non-negative prices and stocks the total is non-negative. */
  lemma {:induction false} TotalNonNegative(s: Collection)
    requires NonNegative(s)
    requires forall k :: 0 <= k < |s| ==> s[k].price >= 0
    ensures Total(s) >= 0
    decreases |s|
  {
    if |s| > 0 {
      TotalNonNegative(s[1..]);
    }
  }

  /** `calcTotal`: accumulate the subtotals front to back. */
  method CalcTotal(s: Collection) returns (total: int)
    ensures total == Total(s)
    ensures |s| == 0 ==> total == 0
  {
    total := 0;
    var k := 0;
    while k < |s|
      invariant 0 <= k <= |s|
      invariant total == Total(s[..k])
    {
      assert s[..k + 1] == s[..k] + [s[k]];
      TotalAppend(s[..k], [s[k]]);
      total := total + Subtotal(s[k]);
      k := k + 1;
    }
    assert s[..k] == s;
  }

  /**
   * A move between two lists that price the product alike keeps the combined
   * value of the two lists: what one loses the other gains.
   */
  lemma MoveKeepsValue(source: Collection, id: int, amount: int, dest: Collection)
    requires HasId(source, id)
    requires HasId(dest, id) ==> dest[Index(dest, id)].price == source[Index(source, id)].price
    ensures var m := MoveStock(source, id, amount, dest);
      Total(m.source) + Total(m.dest) == Total(source) + Total(dest)
  {
    var i := Index(source, id);
    if CheckStock(source[i], amount) {
      var w := Withdraw(source, i, amount);
      WithdrawValue(source, i, amount);
      DepositValue(dest, w[i], amount);
    }
  }

  /** Taking `amount` units from one entry lowers the total by their value. */
  lemma WithdrawValue(s: Collection, i: int, amount: int)
    requires 0 <= i < |s|
    ensures Total(Withdraw(s, i, amount)) == Total(s) - s[i].price * amount
  {
    TotalTakeStock(s, i, amount);
  }

  /** Depositing `amount` units of `p`, priced as any entry already there, raises the total by their value. */
  lemma DepositValue(dest: Collection, p: Product, amount: int)
    requires HasId(dest, p.id) ==> dest[Index(dest, p.id)].price == p.price
    ensures Total(Deposit(dest, p, amount)) == Total(dest) + p.price * amount
  {
    if HasId(dest, p.id) {
      var j := Index(dest, p.id);
      DepositShape(dest, p, amount);
      TotalAddStock(dest, j, amount);
    } else {
      var c := WithStock(p, amount);
      DepositShape(dest, p, amount);
      TotalAppend(dest, [c]);
      assert Total([c]) == p.price * amount;
    }
  }

  /** Adding `delta` units to one entry raises the total by that entry's price times `delta`. */
  lemma TotalAddStock(s: Collection, i: int, delta: int)
    requires 0 <= i < |s|
    ensures Total(s[i := WithStock(s[i], s[i].stock + delta)]) == Total(s) + s[i].price * delta
  {
    var p := s[i];
    TotalUpdate(s, i, WithStock(p, p.stock + delta));
    assert p.price * (p.stock + delta) == p.price * p.stock + p.price * delta;
  }

  /** Taking `delta` units from one entry lowers the total by that entry's price times `delta`. */
  lemma TotalTakeStock(s: Collection, i: int, delta: int)
    requires 0 <= i < |s|
    ensures Total(s[i := WithStock(s[i], s[i].stock - delta)]) == Total(s) - s[i].price * delta
  {
    var p := s[i];
    TotalUpdate(s, i, WithStock(p, p.stock - delta));
    assert p.price * (p.stock - delta) == p.price * p.stock - p.price * delta;
  }

  /** `clearOut`: empty the collection. */
  function ClearOut(s: Collection): (r: Collection)
    ensures |r| == 0
    ensures Total(r) == 0
    ensures forall id :: !HasId(r, id)
  {
    s[..0]
  }
}

=== FILE: wrappers.dfy ===
/** Failure-compatible optional value, used for lookups that may find nothing. */
module Wrappers {

  /** `Some(v)` for a found value, `None` where the JavaScript code yields `undefined`. */
  datatype Option<+T> = None | Some(value: T)
}
